=== FILE: README.md ===
# Candidate screener scoring engine, in Dafny

A model of the scoring and decision engine of the candidate fit screener,
a Streamlit questionnaire. The screener asks rating (likert), yes/no
(boolean), multiple-choice (select), situational-judgment (sjt) and free-text
questions. Once the form is submitted it:

1. scores each answer on a 0-100 scale and multiplies it by the question
   weight (`normalize`, `score_question`);
2. runs three hard-coded knockout checks on the raw answers: evening
   availability, weekend availability and a minimum sales-comfort rating;
3. accumulates per-dimension totals and rounds each dimension's weighted
   mean with Python's `round`;
4. rounds the dimension-weighted mean of the dimension scores to get the
   overall score;
5. picks a tier from the ladder 85 / 70 / 55. A failed knockout overrides
   the ladder.

Modules, one per stage:

- `Optional`, `Seqs`, `PyValues`, `Rounding` and `Arith` hold an optional
  value, small sequence facts, Python's dynamic answer values, the built-ins
  the engine applies to them, and a few facts about real arithmetic:
  - `PyValues` models truthiness, `float()`, `int()` and `str.strip()`.
  - `Rounding` models Python 3's round-half-to-even.
- `Scoring` models `normalize` and `score_question`, one function per
  question kind.
- `Knockout` models the knockout block.
- `Aggregation` models the per-dimension loop (`dim_totals`, `dim_weights`)
  and the `dim_scores` comprehension:
  - a functional reference (`DimScore`);
  - the loop itself (`Accumulate`);
  - the proof that the rounded quotient is the question-weighted mean of the
    0-100 values.
- `Dimensions` holds what the two stages share: the dimension-weight lookup
  and one entry of the dimension scores.
- `Overall` models the overall score and its bounds.
- `Tiers` models the tier ladder.
- `Screener` composes the stages:
  - `Evaluate`, the functional reference;
  - `Submit`, which follows the handler step by step and is proved equal
    to `Evaluate`;
  - end-to-end lemmas and worked examples.

Representation choices:
- **Numbers** are exact `real`s. Python's integers and floats are not
  distinguished.
- **Answers** are `Null | Bool | Num | Str | Unparsable`. `Unparsable` is any
  other truthy value that `float()` and `int()` reject.
- **The question bank** is a value: a map of dimension weights and a
  sequence of `Question`s, one constructor per kind. A question whose kind
  is not one of the five is `Unknown`. Defaults of the bank are applied when
  a `Question` is built: weight 1, `minChars` 0.
- **Dictionaries** keep insertion order in Python. The model keeps the
  dimensions as a sequence in order of first appearance (`Aggregation.Dims`).

Behaviour worth knowing, all of it as the code does it:
- A boolean answer of `False` scores 0 (rating 1), not the neutral 50. A
  missing boolean answer scores 50. Only the two availability answers are
  also knockouts: a missing availability answer fails its knockout, and
  scores 50 when that question is boolean.
- A dimension score divides whenever the summed effective weight is non-zero
  (Python truthiness), not only when it is positive. The overall score
  likewise divides whenever `wsum` is non-zero.
- A weight-0 question leaves the score of the dimension it joins unchanged
  (`Aggregation.ZeroWeightNeutral`). It can still change the overall score:
  when it is the only question of its dimension, it creates that dimension
  with score 0, and the overall mean counts it
  (`Screener.ZeroWeightDimensionCounts`).

## Model

| member | source | states |
|---|---|---|
| `Scoring.Normalize` | streamlit_app.py:14-16 | The result lies in [0,100]. Every input at or below 1 gives 0 and every input at or above 5 gives 100. Inside [1,5] the result is the linear position of the input on the scale. |
| `Scoring.NormalizeMonotone` | streamlit_app.py:14-16 | `normalize` never decreases as its input grows. |
| `Scoring.NormalizeAnchors` | streamlit_app.py:14-16 | The anchors 1, 3 and 5 map to 0, 50 and 100. |
| `Scoring.LikertScore` | streamlit_app.py:23-27 | The result lies in [0,100]. A falsy (missing, 0, empty), string or unparsable answer gives the neutral 50. True counts as rating 1. Any other number is clamped and rescaled. |
| `Scoring.LikertMonotone` | streamlit_app.py:23-27 | For non-zero ratings, a higher rating never scores lower. |
| `Scoring.LikertNotMonotoneAtZero` | streamlit_app.py:25 | Because `a or 3` replaces a falsy 0 with 3, the rating 0 scores 50 while 0.5 scores 0. |
| `Scoring.BooleanScore` | streamlit_app.py:28-31 | The score is 100 exactly for True, 0 exactly for False, and 50 exactly for any non-boolean answer. |
| `Scoring.FirstMatch` | streamlit_app.py:33-37 | It finds the first choice whose tag equals the answer: no earlier choice matches. `None` means no choice matches. |
| `Scoring.ChoiceScore` | streamlit_app.py:32-45 | The result lies in [0,100]. A missing, non-string or unmatched answer gives 50. |
| `Scoring.ChoiceScoreUsesFirstMatch` | streamlit_app.py:32-45 | The select/sjt score is the normalized rating of the first matching choice, and that rating defaults to 3. |
| `Scoring.TextScore` | streamlit_app.py:46-52 | A blank or whitespace-only answer gives 50. A non-blank one scores in (60,100]. It reaches exactly 100 iff the trimmed length is at least max(40, minChars). |
| `Scoring.TrimmedScore` | streamlit_app.py:49-52 | An empty trimmed text scores 50. A non-empty one scores in (60,100] and reaches 100 iff its length is at least max(40, minChars). |
| `Scoring.LengthRatio` | streamlit_app.py:51 | The ratio lies in (0,1] and is 1 exactly when the length reaches the full length. |
| `Scoring.TextScoreMonotone` | streamlit_app.py:49-52 | A longer non-empty trimmed text never scores lower. |
| `Scoring.HalfLengthText` | streamlit_app.py:48-52 | A 20-character answer with no padding, against minChars 40, scores 80. |
| `Scoring.NormalizedScore` | streamlit_app.py:22-53 | Each kind's value before weighting lies in [0,100]. An unknown kind gives 0. Only a text question needs its answer to be a string or falsy. |
| `Scoring.ScoreQuestion` | streamlit_app.py:18-53 | For non-zero weights the score is the kind's value times the weight. Weight 0 or an unknown kind gives 0, and a weight-0 question accepts any answer because it returns before reading it. With a non-negative weight w the score lies in [0, 100w]. |
| `Scoring.ScoreIsWeightedValue` | streamlit_app.py:19-21 | The weight-0 early return agrees with value times weight. |
| `PyValues.TruthyUnlessFalsy` | streamlit_app.py:117-122 | An answer is truthy exactly when it is not one of Python's falsy values: None, False, zero or the empty string. This is the test behind every `not x`, `x or d` and `if x` of the engine. |
| `PyValues.PyFloat` | streamlit_app.py:25 | `float()` succeeds exactly on booleans and numbers, and keeps a number unchanged. |
| `PyValues.Trunc` | streamlit_app.py:124 | `int()` of a number truncates toward zero: the result is within one of the input, on the side of zero. |
| `PyValues.PyInt` | streamlit_app.py:123-126 | `int()` succeeds exactly on booleans and numbers. True is 1 and False is 0. |
| `PyValues.Strip` | streamlit_app.py:48 | The stripped text is empty exactly when the text is all whitespace. Otherwise it neither starts nor ends with whitespace. |
| `PyValues.StripIsSlice` | streamlit_app.py:48 | The stripped text is the contiguous slice of the text that starts right after its leading whitespace and has only whitespace after it. This fixes its length. |
| `Rounding.RoundHalfEven` | streamlit_app.py:140 | `round` gives an integer within one half of its argument. Exact halves go to the even neighbour. |
| `Rounding.RoundNearest` | streamlit_app.py:140 | An integer strictly within one half of x is `round(x)`. |
| `Rounding.RoundBetween` | streamlit_app.py:145 | Rounding stays within any integer bounds of its argument. |
| `Rounding.RoundMonotone` | streamlit_app.py:145 | Rounding is monotone. |
| `Rounding.RoundTies` | streamlit_app.py:140 | 0.5, 1.5, 2.5, 62.5 and 63.5 round to 0, 2, 2, 62 and 64. |
| `Knockout.SalesComfortRating` | streamlit_app.py:122-126 | A missing or falsy answer reads as 3. So does a truthy string or other answer `int()` rejects. True reads as 1. A non-zero number is truncated toward zero: the rating is within one of it, on the side of zero. |
| `Knockout.SalesComfortFailsIff` | streamlit_app.py:122-128 | The sales-comfort check fails exactly on True or on a non-zero number below 3. A missing, falsy or unconvertible answer passes. |
| `Knockout.Knockouts` | streamlit_app.py:115-128 | The failed list is an in-order subsequence of the three checks. A check is listed iff it fails. The list is empty iff all three pass. |
| `Knockout.AvailabilityFailsIff` | streamlit_app.py:117-120 | An availability check fails exactly when its answer is missing or falsy. |
| `Knockout.FailedNames` | streamlit_app.py:118-128 | For a failed list as the checks build it, the reported identifiers are distinct and form an in-order subsequence of the three question ids. |
| `Aggregation.EntryOf` | streamlit_app.py:134-136 | A question's entry carries its dimension, weight and weighted score. The score lies in [0, 100w] for a non-negative weight and is 0 for weight 0. |
| `Aggregation.Entries` | streamlit_app.py:133-136 | With non-negative question weights every weighted score lies between 0 and 100 times its weight. |
| `Aggregation.Dims` | streamlit_app.py:131-138 | The dictionary keys, in insertion order, are distinct and are exactly the dimensions some question names. |
| `Aggregation.SumsFactor` | streamlit_app.py:135-138 | Each dimension's `dim_totals` is its dimension weight times the sum of its weighted scores. Its `dim_weights` is the dimension weight times the sum of its question weights. |
| `Aggregation.DimScore` | streamlit_app.py:140 | A dimension whose summed weight is 0 scores 0. |
| `Aggregation.DimScoresAreMeans` | streamlit_app.py:131-140 | `dim_scores` lists each dimension some question names exactly once. Each score is the rounded question-weighted mean of that dimension's values, or 0 when the dimension weight or the question-weight sum is 0. |
| `Aggregation.QuotientIsMean` | streamlit_app.py:131-140 | The divisor is 0 iff the dimension weight or the question-weight sum is 0. Otherwise the quotient equals the question-weighted mean of the 0-100 values. |
| `Aggregation.DimScoreIsWeightedMean` | streamlit_app.py:131-140 | A dimension score is the rounded question-weighted mean of its questions' values, or 0 when either weight is 0. |
| `Aggregation.DimScoreIgnoresDimWeight` | streamlit_app.py:135-140 | Any two non-zero dimension weights give the same dimension score. |
| `Aggregation.DimScoreBounds` | streamlit_app.py:131-140 | With non-negative question weights every dimension score lies in [0,100]. |
| `Aggregation.ZeroWeightNeutral` | streamlit_app.py:131-140 | Inserting a weight-0 question anywhere leaves every dimension score unchanged. |
| `Aggregation.LoopStep` | streamlit_app.py:133-138 | One loop iteration keeps the dictionaries equal to the per-dimension sums, and keeps their keys in first-appearance order. |
| `Aggregation.Accumulate` | streamlit_app.py:131-138 | After the loop, the key order is the first-appearance order of the dimensions, and each entry holds its dimension's sum. |
| `Overall.Overall` | streamlit_app.py:141-145 | With no dimensions the overall score is 0. |
| `Overall.WeightSum` | streamlit_app.py:144 | With positive dimension weights, `wsum` is positive exactly when there is a dimension, so the division is then defined. |
| `Overall.SumAbove` | streamlit_app.py:143-144 | With positive dimension weights and every dimension score at least lo, `ssum` is at least lo times `wsum`. |
| `Overall.SumBelow` | streamlit_app.py:143-144 | With positive dimension weights and every dimension score at most hi, `ssum` is at most hi times `wsum`. |
| `Overall.OverallBetween` | streamlit_app.py:141-145 | With positive dimension weights the overall score stays within any integer bounds of the dimension scores. |
| `Overall.OverallWithinDimScores` | streamlit_app.py:141-145 | With positive dimension weights the overall score lies between the lowest and the highest dimension score. |
| `Tiers.Classify` | streamlit_app.py:148-157 | The tier is the knockout review iff the failed list is non-empty. Otherwise it is the band the score falls in: at least 85, 70 to 84, 55 to 69, or below 55. |
| `Tiers.BadgesIdentifyTiers` | streamlit_app.py:148-157 | No two tiers share a label, and no two share a badge colour. |
| `Tiers.BandsPartition` | streamlit_app.py:150-157 | No score lies in two bands. |
| `Tiers.ClassifyMonotone` | streamlit_app.py:150-157 | Without knockouts, a higher score never gets a lower tier. |
| `Tiers.KnockoutOverridesScore` | streamlit_app.py:148-149 | Any failed knockout gives the review tier whatever the score. |
| `Screener.Evaluate` | streamlit_app.py:113-157 | The scorecard carries the knockout list and the dimension scores. The tier is the review tier iff that list is non-empty; otherwise the tier is the overall score's band. No dimensions means overall 0. |
| `Screener.CheckKnockouts` | streamlit_app.py:115-128 | The imperative knockout block computes the failed list. |
| `Screener.ScoreDimensions` | streamlit_app.py:131-140 | The loop and the comprehension compute the dimension scores. |
| `Screener.SumScores` | streamlit_app.py:143-144 | The two generator sums compute `ssum` and `wsum`. |
| `Screener.PickTier` | streamlit_app.py:148-157 | The if/elif ladder yields the review tier iff a knockout failed, and otherwise the score's band. |
| `Screener.Submit` | streamlit_app.py:113-157 | The handler, step by step, produces exactly the reference scorecard, and its tier is the review tier iff a knockout failed. |
| `Screener.ScorecardInRange` | streamlit_app.py:131-145 | Answers that fit, non-negative question weights and positive dimension weights give a defined scorecard. Every dimension score and the overall score then lie in [0,100]. |
| `Screener.KnockoutDecidesTier` | streamlit_app.py:115-149 | The tier is the review tier iff evenings or weekends is missing or falsy, or the sales-comfort rating is below 3. |
| `Screener.TieRoundsToEven` | streamlit_app.py:140-157 | Likert ratings 3 and 4 in one dimension average 62.5. That rounds to 62, giving Trainable. |
| `Screener.ZeroWeightDimensionCounts` | streamlit_app.py:131-145 | One True answer scores 100 overall alone, and 50 when a weight-0 question opens a second dimension. |

## Left out

- The Streamlit interface is not modelled: page setup, form widgets, result rendering, the sorted "strengths" view and the interview probes. It is presentation only.
- Loading `questions.json` (`load_questions`, the cache) is file I/O. The dimension weights and the questions are parameters (`Screener.Bank`).
- `pretty_label`, the JSON payload, its timestamp and the download button are export and wall-clock concerns. The failed list's identifiers are kept (`Knockout.FailedNames`).
- `KNOCKOUTS` is loaded but never used: the checks are hard-coded, as in the source.
- IEEE-754 floating point: all arithmetic is exact over `real`, so float rounding of the quotients is not modelled.
- `PyValues.PyFloat`: does not parse strings. A non-empty string answer is treated as a value `float()` rejects, while Python would accept numeric text such as "4". Likert widgets only produce numbers.
- `PyValues.PyInt`: does not parse strings either, for the same reason. The sales-comfort widget produces a number.
- Text questions of non-zero weight whose answer is truthy but not a string make Python raise in `.strip()`. The model excludes them with the precondition `Scoring.Fits` instead of modelling the exception. A weight-0 question returns first and accepts any answer.
- Select and sjt option values and keys are modelled as strings. Python's `True == 1` equality between a boolean answer and a numeric option value is not modelled.
- `Overall.Overall`: requires a non-zero `wsum` whenever there are dimensions. The source raises `ZeroDivisionError` there, and the model does not model the exception.
- Question labels, help texts, likert end labels and sjt scenarios are display data and are not part of `Question`.

=== FILE: aggregation.dfy ===
/** The dimension aggregator. The source's loop keeps two running sums per
    dimension, the weighted scores times the dimension weight and the
    effective weights, and each dimension score is their rounded quotient. */
module Aggregation {
  import opened PyValues
  import opened Rounding
  import opened Scoring
  import opened Arith
  import opened Dimensions
  import opened Seqs

  /** `answers.get(q["id"])`. */
  function AnswerFor(answers: Answers, q: Question): Answer {
    if q.id in answers then answers[q.id] else Null
  }

  /** Every question can be scored against its answer without Python raising. */
  predicate AllFit(qs: seq<Question>, answers: Answers) {
    forall i :: 0 <= i < |qs| ==> Fits(qs[i], AnswerFor(answers, qs[i]))
  }

  /** Every question weight is non-negative. */
  predicate NonNegativeWeights(qs: seq<Question>) {
    forall i :: 0 <= i < |qs| ==> qs[i].weight >= 0.0
  }

  /** One scored question: its dimension, its weight and its weighted score. */
  datatype Entry = Entry(dimension: string, weight: real, score: real)

  /** The entry of one question. Its score is the question's 0-100 value
      times its weight (`Scoring.ScoreIsWeightedValue`), so it is 0 for
      weight 0 and at most 100 times a non-negative weight. */
  function EntryOf(q: Question, a: Answer): (e: Entry)
    requires Fits(q, a)
    ensures e.dimension == q.dimension && e.weight == q.weight && e.score == ScoreQuestion(q, a)
    ensures e.weight >= 0.0 ==> 0.0 <= e.score <= 100.0 * e.weight
    ensures e.weight == 0.0 ==> e.score == 0.0
  {
    Entry(q.dimension, q.weight, ScoreQuestion(q, a))
  }

  /** The entries of a question list, in order. Questions of non-negative
      weight give weighted scores between 0 and 100 times their weights. */
  function Entries(qs: seq<Question>, answers: Answers): (es: seq<Entry>)
    requires AllFit(qs, answers)
    ensures |es| == |qs|
    ensures forall i :: 0 <= i < |qs| ==> es[i] == EntryOf(qs[i], AnswerFor(answers, qs[i]))
    ensures NonNegativeWeights(qs) ==> ScoresInRange(es)
  {
    seq(|qs|, i requires 0 <= i < |qs| => EntryOf(qs[i], AnswerFor(answers, qs[i])))
  }

  /** The dimensions in order of first appearance: the key order of the
      source's per-dimension dictionaries. Each is listed once, and they are
      exactly the dimensions some question names. */
  function Dims(es: seq<Entry>): (ds: seq<string>)
    ensures Distinct(ds)
    ensures forall d :: d in ds <==> exists i :: 0 <= i < |es| && es[i].dimension == d
  {
    if es == [] then []
    else
      var ds := Dims(Init(es));
      assert forall i :: 0 <= i < |es| - 1 ==> Init(es)[i] == es[i];
      assert es[|es| - 1] == Last(es);
      if Last(es).dimension in ds then ds else ds + [Last(es).dimension]
  }

  /** The sum of the weighted scores of `d`'s questions, each the question's
      0-100 value times its weight. */
  function WeightedSum(es: seq<Entry>, d: string): real {
    if es == [] then 0.0
    else WeightedSum(Init(es), d) + (if Last(es).dimension == d then Last(es).score else 0.0)
  }

  /** The sum of the question weights of `d`'s questions. */
  function QuestionWeight(es: seq<Entry>, d: string): real {
    if es == [] then 0.0
    else QuestionWeight(Init(es), d) + (if Last(es).dimension == d then Last(es).weight else 0.0)
  }

  /** What one question adds to the source's two running dictionaries: its
      weighted score times its dimension's weight to `dim_totals`, and its
      weight times its dimension's weight to `dim_weights`. */
  datatype Share = Share(dimension: string, total: real, weight: real)

  function ShareOf(e: Entry, dw: map<string, real>): (s: Share)
    ensures s.dimension == e.dimension
  {
    var c := DimWeight(dw, e.dimension);
    Share(e.dimension, e.score * c, e.weight * c)
  }

  /** The shares of the questions, in order. */
  function Shares(es: seq<Entry>, dw: map<string, real>): (ss: seq<Share>)
    ensures |ss| == |es|
    ensures forall i :: 0 <= i < |es| ==> ss[i] == ShareOf(es[i], dw)
  {
    seq(|es|, i requires 0 <= i < |es| => ShareOf(es[i], dw))
  }

  lemma SharesSnoc(pre: seq<Entry>, e: Entry, dw: map<string, real>)
    ensures Shares(pre + [e], dw) == Shares(pre, dw) + [ShareOf(e, dw)]
  {
    assert forall i :: 0 <= i < |pre| ==> (pre + [e])[i] == pre[i];
  }

  /** The sum of the `dim_totals` shares of `d`. */
  function TotalOf(ss: seq<Share>, d: string): real {
    if ss == [] then 0.0
    else TotalOf(Init(ss), d) + (if Last(ss).dimension == d then Last(ss).total else 0.0)
  }

  /** The sum of the `dim_weights` shares of `d`. */
  function WeightOf(ss: seq<Share>, d: string): real {
    if ss == [] then 0.0
    else WeightOf(Init(ss), d) + (if Last(ss).dimension == d then Last(ss).weight else 0.0)
  }

  /** One induction step of a scaled sum, on plain reals. */
  lemma FactorStep(c: real, t0: real, s0: real, s: real, x: real, t: real, sum: real)
    requires t0 == c * s0 && x == s * c && t == t0 + x && sum == s0 + s
    ensures t == c * sum
  {
    Distrib(c, s0, s);
  }

  lemma SameFactor(c: real, t0: real, s0: real, t: real, sum: real)
    requires t0 == c * s0 && t == t0 && sum == s0
    ensures t == c * sum
  {
  }

  lemma ZeroFactor(c: real, x: real)
    requires x == 0.0
    ensures c * x == 0.0
  {
  }

  /** `dim_totals[d]` after the loop. */
  function DimTotal(es: seq<Entry>, dw: map<string, real>, d: string): real {
    TotalOf(Shares(es, dw), d)
  }

  /** `dim_weights[d]` after the loop. */
  function DimWeightSum(es: seq<Entry>, dw: map<string, real>, d: string): real {
    WeightOf(Shares(es, dw), d)
  }

  /** A dimension no question names has empty sums. */
  lemma {:induction false} AbsentDimension(es: seq<Entry>, dw: map<string, real>, d: string)
    requires d !in Dims(es)
    ensures WeightedSum(es, d) == 0.0 && QuestionWeight(es, d) == 0.0
    ensures DimTotal(es, dw, d) == 0.0 && DimWeightSum(es, dw, d) == 0.0
  {
    if es != [] {
      assert es == Init(es) + [Last(es)];
      SharesSnoc(Init(es), Last(es), dw);
      AbsentDimension(Init(es), dw, d);
    }
  }

  /** `d`'s weighted scores, each times `c`, summed one by one. */
  function ScaledSum(es: seq<Entry>, c: real, d: string): real {
    if es == [] then 0.0
    else ScaledSum(Init(es), c, d) + (if Last(es).dimension == d then Last(es).score * c else 0.0)
  }

  /** `d`'s question weights, each times `c`, summed one by one. */
  function ScaledWeight(es: seq<Entry>, c: real, d: string): real {
    if es == [] then 0.0
    else ScaledWeight(Init(es), c, d) + (if Last(es).dimension == d then Last(es).weight * c else 0.0)
  }

  /** The shares of `d` are `d`'s entries scaled by `d`'s weight. */
  lemma {:induction false} SharesAreScaled(es: seq<Entry>, dw: map<string, real>, d: string)
    ensures TotalOf(Shares(es, dw), d) == ScaledSum(es, DimWeight(dw, d), d)
    ensures WeightOf(Shares(es, dw), d) == ScaledWeight(es, DimWeight(dw, d), d)
  {
    if es != [] {
      var pre, e := Init(es), Last(es);
      assert es == pre + [e];
      SharesSnoc(pre, e, dw);
      SharesAreScaled(pre, dw, d);
      assert Init(Shares(es, dw)) == Shares(pre, dw);
    }
  }

  /** Scaling every summand scales the sum. */
  lemma {:induction false} ScaledSumFactor(es: seq<Entry>, c: real, d: string)
    ensures ScaledSum(es, c, d) == c * WeightedSum(es, d)
  {
    if es == [] {
      ZeroFactor(c, WeightedSum(es, d));
    } else {
      var pre, e := Init(es), Last(es);
      ScaledSumFactor(pre, c, d);
      if e.dimension == d {
        FactorStep(c, ScaledSum(pre, c, d), WeightedSum(pre, d), e.score, e.score * c, ScaledSum(es, c, d), WeightedSum(es, d));
      } else {
        SameFactor(c, ScaledSum(pre, c, d), WeightedSum(pre, d), ScaledSum(es, c, d), WeightedSum(es, d));
      }
    }
  }

  lemma {:induction false} ScaledWeightFactor(es: seq<Entry>, c: real, d: string)
    ensures ScaledWeight(es, c, d) == c * QuestionWeight(es, d)
  {
    if es == [] {
      ZeroFactor(c, QuestionWeight(es, d));
    } else {
      var pre, e := Init(es), Last(es);
      ScaledWeightFactor(pre, c, d);
      if e.dimension == d {
        FactorStep(c, ScaledWeight(pre, c, d), QuestionWeight(pre, d), e.weight, e.weight * c, ScaledWeight(es, c, d), QuestionWeight(es, d));
      } else {
        SameFactor(c, ScaledWeight(pre, c, d), QuestionWeight(pre, d), ScaledWeight(es, c, d), QuestionWeight(es, d));
      }
    }
  }

  /** The running sums factor: `dim_totals[d]` is `d`'s weight times the sum
      of its weighted scores, and `dim_weights[d]` is `d`'s weight times the
      sum of its question weights. */
  lemma SumsFactor(es: seq<Entry>, dw: map<string, real>, d: string)
    ensures DimTotal(es, dw, d) == DimWeight(dw, d) * WeightedSum(es, d)
    ensures DimWeightSum(es, dw, d) == DimWeight(dw, d) * QuestionWeight(es, d)
  {
    SharesAreScaled(es, dw, d);
    ScaledSumFactor(es, DimWeight(dw, d), d);
    ScaledWeightFactor(es, DimWeight(dw, d), d);
  }

  /** `dim_scores[d]`: the rounded quotient, or 0 when the weights sum to 0. */
  function DimScore(es: seq<Entry>, dw: map<string, real>, d: string): (s: int)
    ensures DimWeightSum(es, dw, d) == 0.0 ==> s == 0
  {
    var w := DimWeightSum(es, dw, d);
    if w != 0.0 then RoundHalfEven(DimTotal(es, dw, d) / w) else 0
  }

  /** `dim_scores`, in dictionary order. */
  function DimScores(es: seq<Entry>, dw: map<string, real>): (rs: seq<DimResult>)
    ensures |rs| == |Dims(es)|
    ensures forall i :: 0 <= i < |rs| ==> rs[i] == DimResult(Dims(es)[i], DimScore(es, dw, Dims(es)[i]))
  {
    var ds := Dims(es);
    seq(|ds|, i requires 0 <= i < |ds| => DimResult(ds[i], DimScore(es, dw, ds[i])))
  }

  // ---------------------------------------------------------------------------
  // The dimension score is the question-weighted mean of the 0-100 values.

  lemma Cancel(c: real, x: real, y: real, t: real, w: real)
    requires t == c * x && w == c * y
    ensures w != 0.0 <==> c != 0.0 && y != 0.0
    ensures w != 0.0 ==> t / w == x / y
  {
    if c != 0.0 && y != 0.0 {
      NonZeroProduct(c, y);
      CancelFactor(c, x, y);
    } else if c == 0.0 {
      MulZero(y);
    } else {
      MulZero(c);
    }
  }

  /** The quotient the source rounds is the question-weighted mean of the
      values, and its divisor is 0 exactly when one of the two factors is. */
  lemma QuotientIsMean(es: seq<Entry>, dw: map<string, real>, d: string)
    ensures DimWeightSum(es, dw, d) != 0.0 <==> DimWeight(dw, d) != 0.0 && QuestionWeight(es, d) != 0.0
    ensures DimWeightSum(es, dw, d) != 0.0 ==>
      DimTotal(es, dw, d) / DimWeightSum(es, dw, d) == WeightedSum(es, d) / QuestionWeight(es, d)
  {
    SumsFactor(es, dw, d);
    Cancel(DimWeight(dw, d), WeightedSum(es, d), QuestionWeight(es, d), DimTotal(es, dw, d), DimWeightSum(es, dw, d));
  }

  /** The dimension score is the rounded question-weighted mean of the 0-100
      values; the dimension's own weight cancels out unless it is 0. */
  lemma DimScoreIsWeightedMean(es: seq<Entry>, dw: map<string, real>, d: string)
    ensures DimScore(es, dw, d) ==
      if DimWeight(dw, d) != 0.0 && QuestionWeight(es, d) != 0.0
      then RoundHalfEven(WeightedSum(es, d) / QuestionWeight(es, d))
      else 0
  {
    QuotientIsMean(es, dw, d);
  }

  /** Every dimension score belongs to a dimension some question names. */
  lemma ScoredDimensionsNamed(es: seq<Entry>, dw: map<string, real>, rs: seq<DimResult>)
    requires rs == DimScores(es, dw)
    ensures forall i :: 0 <= i < |rs| ==> exists k :: 0 <= k < |es| && es[k].dimension == rs[i].dimension
  {
    var ds := Dims(es);
    forall i | 0 <= i < |rs|
      ensures exists k :: 0 <= k < |es| && es[k].dimension == rs[i].dimension
    {
      assert ds[i] in ds;
    }
  }

  /** Every dimension some question names has a score. */
  lemma NamedDimensionsScored(es: seq<Entry>, dw: map<string, real>, rs: seq<DimResult>)
    requires rs == DimScores(es, dw)
    ensures forall k :: 0 <= k < |es| ==> exists i :: 0 <= i < |rs| && rs[i].dimension == es[k].dimension
  {
    var ds := Dims(es);
    forall k | 0 <= k < |es|
      ensures exists i :: 0 <= i < |rs| && rs[i].dimension == es[k].dimension
    {
      assert es[k].dimension in ds;
      var i :| 0 <= i < |ds| && ds[i] == es[k].dimension;
      assert rs[i].dimension == ds[i];
    }
  }

  /** Every dimension score is its dimension's rounded weighted mean. */
  lemma ScoresAreMeans(es: seq<Entry>, dw: map<string, real>, rs: seq<DimResult>)
    requires rs == DimScores(es, dw)
    ensures forall i :: 0 <= i < |rs| ==>
      rs[i].score ==
        if DimWeight(dw, rs[i].dimension) != 0.0 && QuestionWeight(es, rs[i].dimension) != 0.0
        then RoundHalfEven(WeightedSum(es, rs[i].dimension) / QuestionWeight(es, rs[i].dimension))
        else 0
  {
    forall i | 0 <= i < |rs|
      ensures rs[i].score ==
        if DimWeight(dw, rs[i].dimension) != 0.0 && QuestionWeight(es, rs[i].dimension) != 0.0
        then RoundHalfEven(WeightedSum(es, rs[i].dimension) / QuestionWeight(es, rs[i].dimension))
        else 0
    {
      DimScoreIsWeightedMean(es, dw, rs[i].dimension);
    }
  }

  /** The dimension scores list each dimension some question names exactly
      once, and each score is the rounded question-weighted mean of that
      dimension's values, or 0 when either weight is 0. */
  lemma DimScoresAreMeans(es: seq<Entry>, dw: map<string, real>, rs: seq<DimResult>)
    requires rs == DimScores(es, dw)
    ensures forall i, j :: 0 <= i < j < |rs| ==> rs[i].dimension != rs[j].dimension
    ensures forall i :: 0 <= i < |rs| ==> exists k :: 0 <= k < |es| && es[k].dimension == rs[i].dimension
    ensures forall k :: 0 <= k < |es| ==> exists i :: 0 <= i < |rs| && rs[i].dimension == es[k].dimension
    ensures forall i :: 0 <= i < |rs| ==>
      rs[i].score ==
        if DimWeight(dw, rs[i].dimension) != 0.0 && QuestionWeight(es, rs[i].dimension) != 0.0
        then RoundHalfEven(WeightedSum(es, rs[i].dimension) / QuestionWeight(es, rs[i].dimension))
        else 0
  {
    ScoredDimensionsNamed(es, dw, rs);
    NamedDimensionsScored(es, dw, rs);
    ScoresAreMeans(es, dw, rs);
  }

  /** Two dimension-weight tables that give `d` non-zero weights yield the
      same score for `d`. */
  lemma DimScoreIgnoresDimWeight(es: seq<Entry>, dw1: map<string, real>, dw2: map<string, real>, d: string)
    requires DimWeight(dw1, d) != 0.0 && DimWeight(dw2, d) != 0.0
    ensures DimScore(es, dw1, d) == DimScore(es, dw2, d)
  {
    DimScoreIsWeightedMean(es, dw1, d);
    DimScoreIsWeightedMean(es, dw2, d);
  }

  /** Every weighted score lies between 0 and 100 times its weight. */
  predicate ScoresInRange(es: seq<Entry>) {
    forall i :: 0 <= i < |es| ==> 0.0 <= es[i].score <= 100.0 * es[i].weight
  }

  /** Non-negative question weights sum to a non-negative weight. */
  lemma {:induction false} QuestionWeightNonNegative(es: seq<Entry>, d: string)
    requires ScoresInRange(es)
    ensures 0.0 <= QuestionWeight(es, d)
  {
    if es != [] {
      QuestionWeightNonNegative(Init(es), d);
    }
  }

  /** With non-negative question weights, the weighted sum lies between 0 and
      100 times the weight sum. */
  lemma {:induction false} WeightedSumBounds(es: seq<Entry>, d: string)
    requires ScoresInRange(es)
    ensures 0.0 <= WeightedSum(es, d) <= 100.0 * QuestionWeight(es, d)
  {
    if es != [] {
      var e := Last(es);
      assert 0.0 <= e.score <= 100.0 * e.weight;
      WeightedSumBounds(Init(es), d);
    }
  }

  /** With non-negative question weights every dimension score lies in [0,100]. */
  lemma DimScoreBounds(es: seq<Entry>, dw: map<string, real>, d: string)
    requires ScoresInRange(es)
    ensures 0 <= DimScore(es, dw, d) <= 100
  {
    DimScoreIsWeightedMean(es, dw, d);
    WeightedSumBounds(es, d);
    QuestionWeightNonNegative(es, d);
    var w := QuestionWeight(es, d);
    if DimWeight(dw, d) != 0.0 && w != 0.0 {
      RatioBetween(WeightedSum(es, d), w, 0.0, 100.0);
      RoundBetween(WeightedSum(es, d) / w, 0, 100);
    }
  }

  // ---------------------------------------------------------------------------
  // Questions of weight 0.

  /** A zero entry adds nothing to either sum. */
  lemma {:induction false} SumsIgnoreZero(pre: seq<Entry>, e: Entry, post: seq<Entry>, d: string)
    requires e.weight == 0.0 && e.score == 0.0
    ensures WeightedSum(pre + [e] + post, d) == WeightedSum(pre + post, d)
    ensures QuestionWeight(pre + [e] + post, d) == QuestionWeight(pre + post, d)
  {
    var all := pre + [e] + post;
    if post == [] {
      assert Init(all) == pre && Last(all) == e && pre + post == pre;
    } else {
      var p := Init(post);
      assert post == p + [Last(post)];
      assert Init(all) == pre + [e] + p && Last(all) == Last(post);
      assert Init(pre + post) == pre + p && Last(pre + post) == Last(post);
      SumsIgnoreZero(pre, e, p, d);
    }
  }

  /** A question of weight 0, wherever it sits, moves no dimension score. */
  lemma ZeroWeightNeutral(pre: seq<Entry>, e: Entry, post: seq<Entry>, dw: map<string, real>, d: string)
    requires e.weight == 0.0 && e.score == 0.0
    ensures DimScore(pre + [e] + post, dw, d) == DimScore(pre + post, dw, d)
  {
    SumsIgnoreZero(pre, e, post, d);
    DimScoreIsWeightedMean(pre + [e] + post, dw, d);
    DimScoreIsWeightedMean(pre + post, dw, d);
  }

  // ---------------------------------------------------------------------------
  // The accumulation loop itself.

  /** `m[k] = m.get(k, 0.0) + x`. */
  function Add(m: map<string, real>, k: string, x: real): (r: map<string, real>)
    ensures r.Keys == m.Keys + {k}
  {
    m[k := (if k in m then m[k] else 0.0) + x]
  }

  /** Every key of `totals` holds the sum of its dimension's `dim_totals` shares. */
  predicate TracksTotals(totals: map<string, real>, ss: seq<Share>) {
    forall d :: d in totals ==> totals[d] == TotalOf(ss, d)
  }

  /** Every key of `weights` holds the sum of its dimension's `dim_weights` shares. */
  predicate TracksWeights(weights: map<string, real>, ss: seq<Share>) {
    forall d :: d in weights ==> weights[d] == WeightOf(ss, d)
  }

  /** Both dictionaries are keyed by exactly the dimensions in `order`. */
  predicate Keyed(order: seq<string>, totals: map<string, real>, weights: map<string, real>) {
    totals.Keys == weights.Keys == set d | d in order
  }

  /** Adding to both dictionaries under one key keeps them keyed by the
      order with that key appended when new. */
  lemma KeysStep(order: seq<string>, totals: map<string, real>, weights: map<string, real>, k: string, x: real, y: real)
    requires Keyed(order, totals, weights)
    ensures Keyed(if k in totals then order else order + [k], Add(totals, k, x), Add(weights, k, y))
  {
  }

  /** The loop's state: the dimensions in insertion order and the two dictionaries. */
  datatype Tally = Tally(order: seq<string>, totals: map<string, real>, weights: map<string, real>)

  /** One iteration: add a share to both dictionaries, recording a new key. */
  function Visit(t: Tally, s: Share): Tally {
    Tally(if s.dimension in t.totals then t.order else t.order + [s.dimension],
          Add(t.totals, s.dimension, s.total),
          Add(t.weights, s.dimension, s.weight))
  }

  /** The state of the loop once it has visited `es`: the dimensions in
      insertion order, and the two dictionaries keyed by them. */
  predicate Accumulated(es: seq<Entry>, dw: map<string, real>, t: Tally) {
    && t.order == Dims(es)
    && Keyed(t.order, t.totals, t.weights)
    && TracksTotals(t.totals, Shares(es, dw))
    && TracksWeights(t.weights, Shares(es, dw))
  }

  /** Visiting one more entry appends its dimension when it is new. */
  lemma DimsStep(pre: seq<Entry>, e: Entry)
    ensures Dims(pre + [e]) == if e.dimension in Dims(pre) then Dims(pre) else Dims(pre) + [e.dimension]
  {
    assert Init(pre + [e]) == pre && Last(pre + [e]) == e;
  }

  /** One more share adds to its own dimension and to no other. */
  lemma ShareStep(ss: seq<Share>, s: Share, d: string)
    ensures TotalOf(ss + [s], d) == TotalOf(ss, d) + if s.dimension == d then s.total else 0.0
    ensures WeightOf(ss + [s], d) == WeightOf(ss, d) + if s.dimension == d then s.weight else 0.0
  {
    assert Init(ss + [s]) == ss && Last(ss + [s]) == s;
  }

  /** `dim_totals[dim] = dim_totals.get(dim, 0.0) + s * DIM_WEIGHTS.get(dim, 1.0)`
      keeps the dictionary in step with the shares. */
  lemma TotalsStep(ss: seq<Share>, s: Share, totals: map<string, real>)
    requires TracksTotals(totals, ss)
    requires s.dimension !in totals ==> TotalOf(ss, s.dimension) == 0.0
    ensures TracksTotals(Add(totals, s.dimension, s.total), ss + [s])
  {
    var totals' := Add(totals, s.dimension, s.total);
    forall d | d in totals'
      ensures totals'[d] == TotalOf(ss + [s], d)
    {
      ShareStep(ss, s, d);
    }
  }

  /** `dim_weights[dim] = dim_weights.get(dim, 0.0) + dim_w` likewise. */
  lemma WeightsStep(ss: seq<Share>, s: Share, weights: map<string, real>)
    requires TracksWeights(weights, ss)
    requires s.dimension !in weights ==> WeightOf(ss, s.dimension) == 0.0
    ensures TracksWeights(Add(weights, s.dimension, s.weight), ss + [s])
  {
    var weights' := Add(weights, s.dimension, s.weight);
    forall d | d in weights'
      ensures weights'[d] == WeightOf(ss + [s], d)
    {
      ShareStep(ss, s, d);
    }
  }

  /** One iteration of the loop body. */
  lemma LoopStep(es: seq<Entry>, i: int, dw: map<string, real>, t: Tally)
    requires 0 <= i < |es| && Accumulated(es[..i], dw, t)
    ensures Accumulated(es[..i + 1], dw, Visit(t, ShareOf(es[i], dw)))
  {
    var pre, e := es[..i], es[i];
    assert es[..i + 1] == pre + [e];
    var s := ShareOf(e, dw);
    if e.dimension !in t.totals {
      AbsentDimension(pre, dw, e.dimension);
    }
    SharesSnoc(pre, e, dw);
    DimsStep(pre, e);
    KeysStep(t.order, t.totals, t.weights, s.dimension, s.total, s.weight);
    TotalsStep(Shares(pre, dw), s, t.totals);
    WeightsStep(Shares(pre, dw), s, t.weights);
  }

  /** A finished tally has one key per dimension score. */
  lemma TallyKeys(es: seq<Entry>, dw: map<string, real>, t: Tally)
    requires Accumulated(es, dw, t)
    ensures |DimScores(es, dw)| == |t.order|
  {
  }

  /** `round(dim_totals[d] / dim_weights[d]) if dim_weights[d] else 0` on a tally. */
  function TallyScoreOf(t: Tally, d: string): int
    requires d in t.totals && d in t.weights
  {
    if t.weights[d] != 0.0 then RoundHalfEven(t.totals[d] / t.weights[d]) else 0
  }

  /** Read off a finished tally, the `i`-th dimension score is the rounded
      quotient of the `i`-th key's two dictionary entries. */
  lemma TallyScore(es: seq<Entry>, dw: map<string, real>, t: Tally, i: int)
    requires Accumulated(es, dw, t) && 0 <= i < |t.order|
    ensures i < |DimScores(es, dw)|
    ensures t.order[i] in t.totals && t.order[i] in t.weights
    ensures DimScores(es, dw)[i] == DimResult(t.order[i], TallyScoreOf(t, t.order[i]))
  {
  }

  /** The source's loop over the questions, filling `dim_totals` and
      `dim_weights`; `order` records the dictionaries' insertion order. */
  method Accumulate(es: seq<Entry>, dw: map<string, real>) returns (t: Tally)
    ensures Accumulated(es, dw, t)
  {
    t := Tally([], map[], map[]);
    for i := 0 to |es|
      invariant Accumulated(es[..i], dw, t)
    {
      LoopStep(es, i, dw, t);
      t := Visit(t, ShareOf(es[i], dw));
    }
    assert es[..|es|] == es;
  }
}

=== FILE: arith.dfy ===
/** Small facts of real arithmetic, stated on plain variables so that the
    proofs using them stay linear. */
module Arith {

  lemma Distrib(c: real, x: real, y: real)
    ensures c * (x + y) == c * x + c * y
  {
  }

  lemma MulMonotone(x: real, y: real, c: real)
    requires x <= y && 0.0 <= c
    ensures x * c <= y * c
  {
  }

  /** A value in [0,hi] scaled by a non-negative factor lies in [0, hi*c]. */
  lemma ScaledWithin(x: real, hi: real, c: real)
    requires 0.0 <= x <= hi
    ensures 0.0 <= c ==> 0.0 <= x * c <= hi * c
  {
    if 0.0 <= c {
      MulMonotone(0.0, x, c);
      MulMonotone(x, hi, c);
      MulZero(c);
    }
  }

  lemma MulZero(c: real)
    ensures c * 0.0 == 0.0 && 0.0 * c == 0.0
  {
  }

  lemma NonZeroProduct(c: real, x: real)
    requires c != 0.0 && x != 0.0
    ensures c * x != 0.0
  {
  }

  lemma CancelFactor(c: real, x: real, y: real)
    requires c != 0.0 && y != 0.0
    ensures (c * x) / (c * y) == x / y
  {
  }

  lemma RatioBetween(x: real, y: real, lo: real, hi: real)
    requires 0.0 < y && lo * y <= x <= hi * y
    ensures lo <= x / y <= hi
  {
  }
}

=== FILE: dimensions.dfy ===
/** What the dimension stage hands to the overall score: the weight lookup
    both stages share and one entry of the dimension scores. */
module Dimensions {

  /** `DIM_WEIGHTS.get(d, 1.0)`: an unlisted dimension weighs 1. */
  function DimWeight(dw: map<string, real>, d: string): real {
    if d in dw then dw[d] else 1.0
  }

  /** One entry of `dim_scores`. */
  datatype DimResult = DimResult(dimension: string, score: int)
}

=== FILE: knockout.dfy ===
/** The knockout evaluator: three hard-coded must-have checks on the raw
    answers, run in a fixed order, each adding its identifier to the failed
    list when it does not hold. */
module Knockout {
  import opened Optional
  import opened PyValues
  import opened Seqs

  datatype Check = AvailabilityEvenings | AvailabilityWeekends | SalesComfort {
    /** The question identifier the check reads, which is also what the
        failed list reports. */
    function Name(): string {
      match this
      case AvailabilityEvenings => "availability_evenings"
      case AvailabilityWeekends => "availability_weekends"
      case SalesComfort => "sales_comfort"
    }
  }

  /** The checks in the order they run. */
  const Checks: seq<Check> := [AvailabilityEvenings, AvailabilityWeekends, SalesComfort]

  /** The identifiers the checks append to the failed list, in the same order. */
  const CheckNames: seq<string> := [AvailabilityEvenings.Name(), AvailabilityWeekends.Name(), SalesComfort.Name()]

  /** The least sales-comfort rating that passes. */
  const MinSalesComfort: int := 3

  /** `answers.get(id, default)`. */
  function Get(answers: Answers, id: string, default: Answer): Answer {
    if id in answers then answers[id] else default
  }

  /** An availability check passes on a truthy answer; a missing one reads as False. */
  predicate Available(answers: Answers, c: Check)
    requires c != SalesComfort
  {
    Truthy(Get(answers, c.Name(), Bool(false)))
  }

  /** The sales-comfort rating the check compares: `int(answers.get(id, 3) or 3)`,
      and 3 when int() raises. A missing or falsy answer and a string rate 3,
      True rates 1, and a non-zero number is truncated toward zero. */
  function SalesComfortRating(answers: Answers): (n: int)
    ensures SalesComfort.Name() !in answers ==> n == 3
    ensures SalesComfort.Name() in answers ==>
      var a := answers[SalesComfort.Name()];
      && (!Truthy(a) || a.Str? || a.Unparsable? ==> n == 3)
      && (a == Bool(true) ==> n == 1)
      && (a.Num? && 0.0 < a.r ==> n as real <= a.r < n as real + 1.0)
      && (a.Num? && a.r < 0.0 ==> n as real - 1.0 < a.r <= n as real)
  {
    var sc := Get(answers, SalesComfort.Name(), Num(3.0));
    var sc := if Truthy(sc) then sc else Num(3.0);
    match PyInt(sc)
    case Some(n) => n
    case None => 3
  }

  /** The sales-comfort check fails exactly on an answer of True (int(True) is 1)
      or on a non-zero number below 3; a missing, falsy or unconvertible
      answer passes. */
  lemma SalesComfortFailsIff(answers: Answers)
    ensures SalesComfortRating(answers) < MinSalesComfort <==>
      SalesComfort.Name() in answers &&
      var a := answers[SalesComfort.Name()];
      a == Bool(true) || (a.Num? && a.r != 0.0 && a.r < 3.0)
  {
  }

  /** Whether one check holds. */
  predicate Passes(answers: Answers, c: Check) {
    match c
    case AvailabilityEvenings => Available(answers, c)
    case AvailabilityWeekends => Available(answers, c)
    case SalesComfort => SalesComfortRating(answers) >= MinSalesComfort
  }

  /** The failed list, in check order. */
  function Knockouts(answers: Answers): (failed: seq<Check>)
    ensures Subsequence(failed, Checks)
    ensures forall c :: c in failed <==> !Passes(answers, c)
    ensures failed == [] <==>
      Passes(answers, AvailabilityEvenings) && Passes(answers, AvailabilityWeekends) && Passes(answers, SalesComfort)
  {
    var failed := if !Available(answers, AvailabilityEvenings) then [AvailabilityEvenings] else [];
    var failed := failed + if !Available(answers, AvailabilityWeekends) then [AvailabilityWeekends] else [];
    failed + if SalesComfortRating(answers) < MinSalesComfort then [SalesComfort] else []
  }

  /** An availability check fails exactly when its answer is missing or falsy. */
  lemma AvailabilityFailsIff(answers: Answers, c: Check)
    requires c != SalesComfort
    ensures c in Knockouts(answers) <==> !(c.Name() in answers && Truthy(answers[c.Name()]))
  {
  }

  /** The failed identifiers as the exported record lists them. */
  function FailedNames(failed: seq<Check>): (names: seq<string>)
    ensures |names| == |failed|
    ensures forall i :: 0 <= i < |failed| ==> names[i] == failed[i].Name()
    ensures Subsequence(failed, Checks) ==> Subsequence(names, CheckNames) && Distinct(names)
  {
    var names := seq(|failed|, i requires 0 <= i < |failed| => failed[i].Name());
    NamesOfChecks(failed, names);
    names
  }

  /** The names of an in-order subsequence of the checks are distinct and in
      the order of the three identifiers. */
  lemma NamesOfChecks(failed: seq<Check>, names: seq<string>)
    requires |names| == |failed|
    requires forall i :: 0 <= i < |failed| ==> names[i] == failed[i].Name()
    ensures Subsequence(failed, Checks) ==> Subsequence(names, CheckNames) && Distinct(names)
  {
    if Subsequence(failed, Checks) {
      NamedSubsequence(failed, Checks, names, CheckNames);
      SubsequenceDistinct(names, CheckNames);
    }
  }

  /** Naming each element keeps a subsequence a subsequence. */
  lemma {:induction false} NamedSubsequence(xs: seq<Check>, ys: seq<Check>, nxs: seq<string>, nys: seq<string>)
    requires |nxs| == |xs| && |nys| == |ys|
    requires forall i :: 0 <= i < |xs| ==> nxs[i] == xs[i].Name()
    requires forall i :: 0 <= i < |ys| ==> nys[i] == ys[i].Name()
    requires Subsequence(xs, ys)
    ensures Subsequence(nxs, nys)
    decreases |ys|
  {
    if xs != [] {
      if xs[0] == ys[0] && Subsequence(xs[1..], ys[1..]) {
        NamedSubsequence(xs[1..], ys[1..], nxs[1..], nys[1..]);
      } else {
        NamedSubsequence(xs, ys[1..], nxs, nys[1..]);
      }
    }
  }
}

=== FILE: optional.dfy ===
/** A value that may be absent: a choice without a rating, a conversion
    Python rejects, a search that finds nothing. */
module Optional {

  datatype Option<T> = None | Some(value: T) {

    /** The value when there is one, otherwise `fallback`: the `d.get(k, fallback)`
        and `x if x else fallback` idioms of the source. */
    function Or(fallback: T): (r: T)
      ensures Some? ==> r == value
      ensures None? ==> r == fallback
    {
      if Some? then value else fallback
    }
  }
}

=== FILE: overall.dfy ===
/** The overall aggregator: the rounded dimension-weighted mean of the
    rounded dimension scores. */
module Overall {
  import opened Rounding
  import opened Arith
  import opened Seqs
  import opened Dimensions

  /** `ssum`: the dimension scores times their dimension weights. */
  function ScoreSum(rs: seq<DimResult>, dw: map<string, real>): real {
    if rs == [] then 0.0
    else ScoreSum(Init(rs), dw) + Last(rs).score as real * DimWeight(dw, Last(rs).dimension)
  }

  /** Every dimension of `rs` has a positive weight. */
  predicate PositiveDimWeights(rs: seq<DimResult>, dw: map<string, real>) {
    forall i :: 0 <= i < |rs| ==> DimWeight(dw, rs[i].dimension) > 0.0
  }

  /** Every dimension score of `rs` lies in [lo,hi]. */
  predicate ScoresWithin(rs: seq<DimResult>, lo: int, hi: int) {
    forall i :: 0 <= i < |rs| ==> lo <= rs[i].score <= hi
  }

  /** `wsum`: the dimension weights. Positive weights cannot sum to 0, so
      the overall score is then defined exactly when there is a dimension. */
  function WeightSum(rs: seq<DimResult>, dw: map<string, real>): (w: real)
    ensures PositiveDimWeights(rs, dw) ==> (w > 0.0 <==> rs != [])
  {
    if rs == [] then 0.0
    else
      assert PositiveDimWeights(rs, dw) ==> PositiveDimWeights(Init(rs), dw);
      WeightSum(Init(rs), dw) + DimWeight(dw, Last(rs).dimension)
  }

  /** `overall`: 0 without dimensions, otherwise the rounded weighted mean.
      The source divides by `wsum`, so it must not be 0. */
  function Overall(rs: seq<DimResult>, dw: map<string, real>): (o: int)
    requires rs == [] || WeightSum(rs, dw) != 0.0
    ensures rs == [] ==> o == 0
  {
    if rs == [] then 0 else RoundHalfEven(ScoreSum(rs, dw) / WeightSum(rs, dw))
  }

  /** `s` is at least `lo` times `w`. */
  predicate AtLeast(s: real, w: real, lo: real) {
    lo * w <= s
  }

  /** `s` is at most `hi` times `w`. */
  predicate AtMost(s: real, w: real, hi: real) {
    s <= hi * w
  }

  /** Scores at least `lo` and positive weights keep the score sum at least
      `lo` times the weight sum. */
  lemma {:induction false} SumAbove(rs: seq<DimResult>, dw: map<string, real>, lo: real)
    requires PositiveDimWeights(rs, dw)
    requires forall i :: 0 <= i < |rs| ==> lo <= rs[i].score as real
    ensures AtLeast(ScoreSum(rs, dw), WeightSum(rs, dw), lo)
  {
    if rs == [] {
      MulZero(lo);
    } else {
      var r := Last(rs);
      SumAbove(Init(rs), dw, lo);
      StepAbove(lo, ScoreSum(Init(rs), dw), WeightSum(Init(rs), dw), r.score as real, DimWeight(dw, r.dimension));
    }
  }

  lemma StepAbove(lo: real, s0: real, w0: real, s: real, w: real)
    requires AtLeast(s0, w0, lo) && lo <= s && 0.0 < w
    ensures AtLeast(s0 + s * w, w0 + w, lo)
  {
    MulMonotone(lo, s, w);
    Distrib(lo, w0, w);
  }

  /** Scores at most `hi` and positive weights keep the score sum at most
      `hi` times the weight sum. */
  lemma {:induction false} SumBelow(rs: seq<DimResult>, dw: map<string, real>, hi: real)
    requires PositiveDimWeights(rs, dw)
    requires forall i :: 0 <= i < |rs| ==> rs[i].score as real <= hi
    ensures AtMost(ScoreSum(rs, dw), WeightSum(rs, dw), hi)
  {
    if rs == [] {
      MulZero(hi);
    } else {
      var r := Last(rs);
      SumBelow(Init(rs), dw, hi);
      StepBelow(hi, ScoreSum(Init(rs), dw), WeightSum(Init(rs), dw), r.score as real, DimWeight(dw, r.dimension));
    }
  }

  lemma StepBelow(hi: real, s0: real, w0: real, s: real, w: real)
    requires AtMost(s0, w0, hi) && s <= hi && 0.0 < w
    ensures AtMost(s0 + s * w, w0 + w, hi)
  {
    MulMonotone(s, hi, w);
    Distrib(hi, w0, w);
  }

  /** The overall score is a rounded convex combination: it stays within any
      integer bounds of the dimension scores. */
  lemma OverallBetween(rs: seq<DimResult>, dw: map<string, real>, lo: int, hi: int)
    requires rs != [] && PositiveDimWeights(rs, dw) && ScoresWithin(rs, lo, hi)
    ensures WeightSum(rs, dw) > 0.0 && lo <= Overall(rs, dw) <= hi
  {
    SumAbove(rs, dw, lo as real);
    SumBelow(rs, dw, hi as real);
    RoundedMeanBetween(ScoreSum(rs, dw), WeightSum(rs, dw), lo, hi);
  }

  /** The rounded quotient of a sum bounded by multiples of a positive weight. */
  lemma RoundedMeanBetween(s: real, w: real, lo: int, hi: int)
    requires 0.0 < w && AtLeast(s, w, lo as real) && AtMost(s, w, hi as real)
    ensures lo <= RoundHalfEven(s / w) <= hi
  {
    RatioBetween(s, w, lo as real, hi as real);
    RoundBetween(s / w, lo, hi);
  }

  /** The lowest dimension score. */
  function MinScore(rs: seq<DimResult>): (m: int)
    requires rs != []
    ensures forall i :: 0 <= i < |rs| ==> m <= rs[i].score
    ensures exists i :: 0 <= i < |rs| && rs[i].score == m
  {
    if |rs| == 1 then rs[0].score
    else
      var m := MinScore(rs[1..]);
      if rs[0].score <= m then rs[0].score else m
  }

  /** The highest dimension score. */
  function MaxScore(rs: seq<DimResult>): (m: int)
    requires rs != []
    ensures forall i :: 0 <= i < |rs| ==> rs[i].score <= m
    ensures exists i :: 0 <= i < |rs| && rs[i].score == m
  {
    if |rs| == 1 then rs[0].score
    else
      var m := MaxScore(rs[1..]);
      if rs[0].score >= m then rs[0].score else m
  }

  /** With positive dimension weights the overall score lies between the
      lowest and the highest dimension score. */
  lemma OverallWithinDimScores(rs: seq<DimResult>, dw: map<string, real>)
    requires rs != [] && PositiveDimWeights(rs, dw)
    ensures WeightSum(rs, dw) > 0.0 && MinScore(rs) <= Overall(rs, dw) <= MaxScore(rs)
  {
    OverallBetween(rs, dw, MinScore(rs), MaxScore(rs));
  }
}

=== FILE: pyvalues.dfy ===
/** The Python values a submitted form hands to the scoring engine, and the
    few Python built-ins the engine applies to them: truthiness, `float()`,
    `int()` and `str.strip()`. */
module PyValues {
  import opened Optional

  /** One raw answer, as dynamically typed as the form widgets produce it. */
  datatype Answer =
    | Null            // Python None: the question was left unanswered
    | Bool(b: bool)
    | Num(r: real)    // an int or a float, taken as an exact real
    | Str(s: string)
    | Unparsable      // any other truthy value, which float() and int() both reject

  /** Answers keyed by question identifier. */
  type Answers = map<string, Answer>

  /** The answers Python treats as false: None, False, zero and the empty string. */
  const Falsy: set<Answer> := {Null, Bool(false), Num(0.0), Str([])}

  /** Python truthiness (`if a:`, `a or d`). */
  predicate Truthy(a: Answer) {
    match a
    case Null => false
    case Bool(b) => b
    case Num(r) => r != 0.0
    case Str(s) => s != []
    case Unparsable => true
  }

  /** Every answer but the falsy ones is truthy. */
  lemma TruthyUnlessFalsy(a: Answer)
    ensures Truthy(a) <==> a !in Falsy
  {
  }

  /** `float(a)`: `None` when Python raises. Booleans convert to 0.0 and 1.0. */
  function PyFloat(a: Answer): (r: Option<real>)
    ensures r.Some? <==> a.Bool? || a.Num?
    ensures a.Num? ==> r == Some(a.r)
  {
    match a
    case Bool(b) => Some(if b then 1.0 else 0.0)
    case Num(x) => Some(x)
    case _ => None
  }

  /** `int(x)` on a float: truncation toward zero. */
  function Trunc(x: real): (n: int)
    ensures 0.0 <= x ==> n as real <= x < n as real + 1.0
    ensures x < 0.0 ==> n as real - 1.0 < x <= n as real
  {
    if x >= 0.0 then x.Floor else -((-x).Floor)
  }

  /** `int(a)`: `None` when Python raises. */
  function PyInt(a: Answer): (r: Option<int>)
    ensures r.Some? <==> a.Bool? || a.Num?
    ensures a.Bool? ==> r == Some(if a.b then 1 else 0)
  {
    match a
    case Bool(b) => Some(if b then 1 else 0)
    case Num(x) => Some(Trunc(x))
    case _ => None
  }

  /** The characters Python's `str.isspace()` accepts. */
  predicate IsSpace(c: char) {
    || c == ' '
    || ('\t' <= c <= '\r')
    || ('\U{1C}' <= c <= '\U{1F}')
    || c == '\U{85}' || c == '\U{A0}' || c == '\U{1680}'
    || ('\U{2000}' <= c <= '\U{200A}')
    || c == '\U{2028}' || c == '\U{2029}' || c == '\U{202F}' || c == '\U{205F}' || c == '\U{3000}'
  }

  /** `r` is `s` with a run of whitespace cut off its start. */
  ghost predicate CutAtStart(s: string, r: string) {
    && |r| <= |s|
    && (forall i :: 0 <= i < |r| ==> r[i] == s[|s| - |r| + i])
    && (forall i :: 0 <= i < |s| - |r| ==> IsSpace(s[i]))
  }

  /** `r` is `s` with a run of whitespace cut off its end. */
  ghost predicate CutAtEnd(s: string, r: string) {
    && |r| <= |s|
    && (forall i :: 0 <= i < |r| ==> r[i] == s[i])
    && (forall i :: |r| <= i < |s| ==> IsSpace(s[i]))
  }

  /** `s.lstrip()`: a suffix of `s`, with only whitespace cut off. */
  function StripStart(s: string): (r: string)
    ensures CutAtStart(s, r)
    ensures r == [] || !IsSpace(r[0])
  {
    if s != [] && IsSpace(s[0]) then
      var r := StripStart(s[1..]);
      DropSpace(s, r);
      r
    else s
  }

  /** Cutting whitespace off `s[1..]` cuts whitespace off `s` when `s[0]` is
      whitespace. */
  lemma DropSpace(s: string, r: string)
    requires s != [] && IsSpace(s[0]) && CutAtStart(s[1..], r)
    ensures CutAtStart(s, r)
  {
    forall i | 0 < i < |s| - |r|
      ensures IsSpace(s[i])
    {
      assert s[1..][i - 1] == s[i];
    }
  }

  /** `s.rstrip()`: a prefix of `s`, with only whitespace cut off. */
  function StripEnd(s: string): (r: string)
    ensures CutAtEnd(s, r)
    ensures r == [] || !IsSpace(r[|r| - 1])
  {
    if s != [] && IsSpace(s[|s| - 1]) then StripEnd(s[..|s| - 1]) else s
  }

  /** The number of whitespace characters `s` starts with. */
  function LeadingSpaces(s: string): (n: nat)
    ensures n <= |s|
    ensures forall i :: 0 <= i < n ==> IsSpace(s[i])
    ensures n == |s| || !IsSpace(s[n])
  {
    if s != [] && IsSpace(s[0]) then
      var n := LeadingSpaces(s[1..]);
      assert forall i :: 0 < i <= n ==> s[i] == s[1..][i - 1];
      1 + n
    else 0
  }

  /** `r` is the slice of `s` from index `i` on, with only whitespace before
      and after it. */
  ghost predicate SliceBetweenSpaces(s: string, r: string, i: int) {
    && 0 <= i && i + |r| <= |s|
    && (forall k :: 0 <= k < |r| ==> r[k] == s[i + k])
    && (forall k :: 0 <= k < i ==> IsSpace(s[k]))
    && (forall k :: i + |r| <= k < |s| ==> IsSpace(s[k]))
  }

  /** `lstrip` cuts exactly the leading whitespace. */
  lemma StripStartCutsLeading(s: string)
    ensures |StripStart(s)| == |s| - LeadingSpaces(s)
  {
  }

  /** Cutting `n` leading whitespace characters off `s` to get `t`, and then
      trailing whitespace off `t` to get `r`, leaves the slice of `s` at `n`. */
  lemma TrimmedSlice(s: string, t: string, r: string, n: nat)
    requires n + |t| == |s| && CutAtStart(s, t) && CutAtEnd(t, r)
    ensures SliceBetweenSpaces(s, r, n)
  {
    forall k | n + |r| <= k < |s|
      ensures IsSpace(s[k])
    {
      assert t[k - n] == s[k];
    }
  }

  /** `s.strip()`: whitespace cut off both ends; it is empty exactly when `s`
      is all whitespace. `StripIsSlice` states which characters remain. */
  function Strip(s: string): (r: string)
    ensures |r| <= |s|
    ensures r == [] <==> forall i :: 0 <= i < |s| ==> IsSpace(s[i])
    ensures r != [] ==> !IsSpace(r[0]) && !IsSpace(r[|r| - 1])
  {
    StripEnd(StripStart(s))
  }

  /** What `strip()` keeps is the contiguous slice of `s` that starts after
      its leading whitespace and has only whitespace after it. */
  lemma StripIsSlice(s: string)
    ensures SliceBetweenSpaces(s, Strip(s), LeadingSpaces(s))
  {
    var t := StripStart(s);
    StripStartCutsLeading(s);
    TrimmedSlice(s, t, StripEnd(t), LeadingSpaces(s));
  }
}

=== FILE: rounding.dfy ===
/** Python 3's `round(x)` with no digits argument: the nearest integer, ties to even. */
module Rounding {

  function RoundHalfEven(x: real): (n: int)
    ensures x - 0.5 <= n as real <= x + 0.5
    ensures (n as real - x == 0.5 || x - n as real == 0.5) ==> n % 2 == 0
  {
    var f := x.Floor;
    var frac := x - f as real;
    if frac < 0.5 then f
    else if frac > 0.5 then f + 1
    else if f % 2 == 0 then f else f + 1
  }

  /** An integer strictly closer than one half to `x` is its rounding. */
  lemma RoundNearest(x: real, m: int)
    requires x - 0.5 < m as real < x + 0.5
    ensures RoundHalfEven(x) == m
  {
  }

  /** Rounding never leaves an integer interval that holds `x`. */
  lemma RoundBetween(x: real, lo: int, hi: int)
    requires lo as real <= x <= hi as real
    ensures lo <= RoundHalfEven(x) <= hi
  {
  }

  /** Rounding is monotone. */
  lemma RoundMonotone(x: real, y: real)
    requires x <= y
    ensures RoundHalfEven(x) <= RoundHalfEven(y)
  {
  }

  /** Exact halves go to the even neighbour, as Python does. */
  lemma RoundTies()
    ensures RoundHalfEven(0.5) == 0 && RoundHalfEven(1.5) == 2 && RoundHalfEven(2.5) == 2
    ensures RoundHalfEven(62.5) == 62 && RoundHalfEven(63.5) == 64
  {
  }
}

=== FILE: scoring.dfy ===
/** The question scorer: one (question, raw answer) pair to a weighted score.
    Every kind first produces a value on the 0-100 scale, mostly by rescaling
    a 1-5 rating, and the question's weight then multiplies it. */
module Scoring {
  import opened Optional
  import opened PyValues
  import opened Arith

  /** One option of a select question, or one choice of a situational-judgment
      question: `tag` is the option's value (select) or the choice's key (sjt),
      and `score` its rating on the 1-5 scale when the bank gives one. */
  datatype Choice = Choice(tag: string, score: Option<real>)

  /** A question of the bank, one constructor per kind. `weight` is the
      question weight (1 when the bank omits it) and `minChars` the text
      threshold (0 when omitted). */
  datatype Question =
    | Likert(id: string, dimension: string, weight: real)
    | Boolean(id: string, dimension: string, weight: real)
    | Select(id: string, dimension: string, weight: real, options: seq<Choice>)
    | Sjt(id: string, dimension: string, weight: real, choices: seq<Choice>)
    | Text(id: string, dimension: string, weight: real, minChars: int)
    | Unknown(id: string, dimension: string, weight: real, kind: string)

  /** The neutral rating used whenever an answer is missing or unusable. */
  const Neutral: real := 3.0

  /** The bounds of the rating scale. */
  const Low: real := 1.0
  const High: real := 5.0

  function Min(x: real, y: real): real { if x <= y then x else y }

  function Max(x: real, y: real): real { if x >= y then x else y }

  /** Clamps a rating to [1,5] and rescales it linearly onto [0,100]. */
  function Normalize(val: real): (r: real)
    ensures 0.0 <= r <= 100.0
    ensures val <= Low ==> r == 0.0
    ensures val >= High ==> r == 100.0
    ensures Low <= val <= High ==> val == Low + r * (High - Low) / 100.0
  {
    var v := Min(High, Max(Low, val));
    ((v - Low) / (High - Low)) * 100.0
  }

  lemma NormalizeMonotone(x: real, y: real)
    requires x <= y
    ensures Normalize(x) <= Normalize(y)
  {
  }

  lemma NormalizeAnchors()
    ensures Normalize(1.0) == 0.0 && Normalize(3.0) == 50.0 && Normalize(5.0) == 100.0
  {
  }

  /** Likert: `float(a or 3)`, falling back to the neutral rating when float() raises. */
  function LikertScore(a: Answer): (r: real)
    ensures 0.0 <= r <= 100.0
    ensures !Truthy(a) || a.Str? || a == Unparsable ==> r == 50.0
    ensures a == Bool(true) ==> r == 0.0
    ensures a.Num? && a.r != 0.0 ==> r == Normalize(a.r)
  {
    var x := if Truthy(a) then a else Num(Neutral);
    match PyFloat(x)
    case Some(v) => Normalize(v)
    case None => Normalize(Neutral)
  }

  /** A non-zero likert rating is scored monotonically. */
  lemma LikertMonotone(x: real, y: real)
    requires x != 0.0 && y != 0.0 && x <= y
    ensures LikertScore(Num(x)) <= LikertScore(Num(y))
  {
    NormalizeMonotone(x, y);
  }

  /** Zero is falsy, so `a or 3` turns it into the neutral rating: the likert
      scorer is not monotone across 0, where 0.5 scores below 0. */
  lemma LikertNotMonotoneAtZero()
    ensures LikertScore(Num(0.0)) == 50.0 && LikertScore(Num(0.5)) == 0.0
  {
  }

  /** Boolean: True rates 5, False rates 1, anything else the neutral 3. */
  function BooleanScore(a: Answer): (r: real)
    ensures r == 100.0 <==> a == Bool(true)
    ensures r == 0.0 <==> a == Bool(false)
    ensures r == 50.0 <==> !a.Bool?
  {
    Normalize(if a == Bool(true) then High else if a == Bool(false) then Low else Neutral)
  }

  /** The index of the first choice whose tag equals the answer, as the
      source's `for ... if ... break` loop finds it. */
  function FirstMatch(choices: seq<Choice>, a: Answer): (k: Option<nat>)
    ensures k.Some? ==> k.value < |choices| && Str(choices[k.value].tag) == a
    ensures k.Some? ==> forall j :: 0 <= j < k.value ==> Str(choices[j].tag) != a
    ensures k.None? ==> forall j :: 0 <= j < |choices| ==> Str(choices[j].tag) != a
  {
    if choices == [] then None
    else if Str(choices[0].tag) == a then Some(0)
    else match FirstMatch(choices[1..], a)
      case None => None
      case Some(i) => Some(i + 1)
  }

  /** Select and sjt: the rating of the first matching choice (3 when it has
      none), or the neutral rating when nothing matches. */
  function ChoiceScore(choices: seq<Choice>, a: Answer): (r: real)
    ensures 0.0 <= r <= 100.0
    ensures (forall j :: 0 <= j < |choices| ==> Str(choices[j].tag) != a) ==> r == 50.0
    ensures !a.Str? ==> r == 50.0
  {
    match FirstMatch(choices, a)
    case Some(k) => Normalize(choices[k].score.Or(Neutral))
    case None => Normalize(Neutral)
  }

  /** Whatever index `FirstMatch` happens to return, the score is that of the
      first choice matching the answer, its rating defaulting to 3. */
  lemma ChoiceScoreUsesFirstMatch(choices: seq<Choice>, a: Answer, k: nat)
    requires k < |choices| && Str(choices[k].tag) == a
    requires forall j :: 0 <= j < k ==> Str(choices[j].tag) != a
    ensures ChoiceScore(choices, a) == Normalize(choices[k].score.Or(Neutral))
  {
  }

  /** A text answer is a string or a falsy value; `(a or "").strip()` fails on
      anything else. */
  predicate TextFits(a: Answer) {
    a.Str? || !Truthy(a)
  }

  /** The string a text question reads from its answer: `a or ""`. */
  function TextOf(a: Answer): string
    requires TextFits(a)
  {
    if Truthy(a) then a.s else ""
  }

  /** The length at which a text answer earns the full score. */
  function FullLength(minChars: int): int {
    if 40 >= minChars then 40 else minChars
  }

  /** Text: neutral 50 when blank, otherwise 60 plus up to 40 for length,
      reaching 100 at `max(40, minChars)` trimmed characters. */
  function TextScore(minChars: int, a: Answer): (r: real)
    requires TextFits(a)
    ensures Strip(TextOf(a)) == [] ==> r == 50.0
    ensures Strip(TextOf(a)) != [] ==> 60.0 < r <= 100.0
    ensures r == 100.0 <==> |Strip(TextOf(a))| >= FullLength(minChars)
  {
    TrimmedScore(minChars, Strip(TextOf(a)))
  }

  /** The text score of an already trimmed text. */
  function TrimmedScore(minChars: int, txt: string): (r: real)
    ensures txt == [] ==> r == 50.0
    ensures txt != [] ==> 60.0 < r <= 100.0
    ensures r == 100.0 <==> |txt| >= FullLength(minChars)
  {
    if txt == [] then 50.0
    else
      var ratio := LengthRatio(|txt|, FullLength(minChars));
      60.0 + ratio * 40.0
  }

  /** `min(1.0, len / full)`: the share of the full length a text reaches. */
  function LengthRatio(len: nat, full: int): (ratio: real)
    requires 0 < len && 0 < full
    ensures 0.0 < ratio <= 1.0
    ensures ratio == 1.0 <==> len >= full
  {
    Min(1.0, len as real / full as real)
  }

  lemma LengthRatioMonotone(x: nat, y: nat, full: int)
    requires 0 < x <= y && 0 < full
    ensures LengthRatio(x, full) <= LengthRatio(y, full)
  {
    assert x as real / full as real <= y as real / full as real;
  }

  /** A longer trimmed text never scores lower. */
  lemma TextScoreMonotone(minChars: int, txt: string, longer: string)
    requires txt != [] && |txt| <= |longer|
    ensures TrimmedScore(minChars, txt) <= TrimmedScore(minChars, longer)
  {
    LengthRatioMonotone(|txt|, |longer|, FullLength(minChars));
  }

  /** A text that neither starts nor ends with whitespace is its own strip. */
  lemma StripUnpadded(s: string)
    requires s != [] && !IsSpace(s[0]) && !IsSpace(s[|s| - 1])
    ensures Strip(s) == s
  {
    assert StripStart(s) == s;
  }

  /** A 20-character answer against the floor of 40 earns half the length
      bonus: 60 + 0.5 * 40. */
  lemma HalfLengthText(s: string)
    requires |s| == 20 && !IsSpace(s[0]) && !IsSpace(s[19])
    ensures TextScore(40, Str(s)) == 80.0
  {
    StripUnpadded(s);
    assert LengthRatio(20, 40) == 0.5;
  }

  /** The answer shapes each kind of question can normalize without Python
      raising: only a text question is particular. */
  predicate KindFits(q: Question, a: Answer) {
    q.Text? ==> TextFits(a)
  }

  /** The answer shapes a question can score without Python raising: a
      question of weight 0 returns before it looks at the answer. */
  predicate Fits(q: Question, a: Answer) {
    q.Text? && q.weight != 0.0 ==> TextFits(a)
  }

  /** The per-kind value on the 0-100 scale, before the weight multiplies it. */
  function NormalizedScore(q: Question, a: Answer): (r: real)
    requires KindFits(q, a)
    ensures 0.0 <= r <= 100.0
    ensures q.Unknown? ==> r == 0.0
  {
    match q
    case Likert(_, _, _) => LikertScore(a)
    case Boolean(_, _, _) => BooleanScore(a)
    case Select(_, _, _, options) => ChoiceScore(options, a)
    case Sjt(_, _, _, choices) => ChoiceScore(choices, a)
    case Text(_, _, _, minChars) => TextScore(minChars, a)
    case Unknown(_, _, _, _) => 0.0
  }

  /** A 0-100 value scaled by a weight. */
  function Weigh(k: real, w: real): (r: real)
    requires 0.0 <= k <= 100.0
    ensures r == k * w
    ensures k == 0.0 ==> r == 0.0
    ensures 0.0 <= w ==> 0.0 <= r <= 100.0 * w
  {
    MulZero(w);
    ScaledWithin(k, 100.0, w);
    k * w
  }

  /** `score_question`: the weighted score of one answer. A question of weight
      0 returns 0 before it reads the answer, so its answer need not fit (see
      `Fits`); for an answer that does fit, the result is the normalized value
      times the weight either way (`ScoreIsWeightedValue`). */
  function ScoreQuestion(q: Question, a: Answer): (r: real)
    requires Fits(q, a)
    ensures q.weight != 0.0 ==> r == NormalizedScore(q, a) * q.weight
    ensures q.weight == 0.0 || q.Unknown? ==> r == 0.0
    ensures q.weight >= 0.0 ==> 0.0 <= r <= 100.0 * q.weight
  {
    if q.weight == 0.0 then 0.0 else Weigh(NormalizedScore(q, a), q.weight)
  }

  /** The weight-0 shortcut agrees with the uniform formula. */
  lemma ScoreIsWeightedValue(q: Question, a: Answer)
    requires KindFits(q, a)
    ensures ScoreQuestion(q, a) == NormalizedScore(q, a) * q.weight
  {
    assert Fits(q, a);
    MulZero(NormalizedScore(q, a));
  }
}

=== FILE: screener.dfy ===
/** The scorecard of one submitted form: the knockout checks, the per-dimension
    scores, the overall score and the tier, composed as the submit handler
    composes them. */
module Screener {
  import opened PyValues
  import opened Rounding
  import opened Scoring
  import opened Knockout
  import opened Overall
  import opened Dimensions
  import opened Seqs
  import opened Aggregation
  import opened Tiers

  /** The loaded configuration: the dimension weights and the question bank. */
  datatype Bank = Bank(dimWeights: map<string, real>, questions: seq<Question>)

  /** What the handler shows: the dimension scores in dictionary order, the
      overall score, the failed knockouts and the tier. */
  datatype Scorecard = Scorecard(dimensions: seq<DimResult>, overall: int, failed: seq<Check>, tier: Tier)

  /** The dimension scores of a bank against a set of answers. */
  function DimensionsOf(b: Bank, answers: Answers): seq<DimResult>
    requires AllFit(b.questions, answers)
  {
    DimScores(Entries(b.questions, answers), b.dimWeights)
  }

  /** The answers can be scored without Python raising: every text answer to
      a question of non-zero weight is a string or falsy, and `wsum` is not 0
      when there are dimensions. */
  predicate Scorable(b: Bank, answers: Answers) {
    && AllFit(b.questions, answers)
    && var rs := DimensionsOf(b, answers);
       rs == [] || WeightSum(rs, b.dimWeights) != 0.0
  }

  /** Every dimension weight the bank sets is positive. */
  predicate PositiveWeights(dw: map<string, real>) {
    forall d :: d in dw ==> dw[d] > 0.0
  }

  /** The scorecard, defined by composing the pieces. */
  function Evaluate(b: Bank, answers: Answers): (card: Scorecard)
    requires Scorable(b, answers)
    ensures card.failed == Knockouts(answers)
    ensures card.dimensions == DimensionsOf(b, answers)
    ensures card.tier == KnockoutReview <==> card.failed != []
    ensures card.failed == [] ==> InBand(card.overall, card.tier)
    ensures card.dimensions == [] ==> card.overall == 0
  {
    var failed := Knockouts(answers);
    var rs := DimensionsOf(b, answers);
    var overall := Overall.Overall(rs, b.dimWeights);
    Scorecard(rs, overall, failed, Classify(overall, failed))
  }

  /** The knockout block: the two availability checks, then sales comfort. */
  method CheckKnockouts(answers: Answers) returns (failed: seq<Check>)
    ensures failed == Knockouts(answers)
  {
    failed := [];
    if !Truthy(Get(answers, AvailabilityEvenings.Name(), Bool(false))) {
      failed := failed + [AvailabilityEvenings];
    }
    if !Truthy(Get(answers, AvailabilityWeekends.Name(), Bool(false))) {
      failed := failed + [AvailabilityWeekends];
    }
    var sc := Get(answers, SalesComfort.Name(), Num(3.0));
    if !Truthy(sc) {
      sc := Num(3.0);
    }
    var rating := match PyInt(sc) case Some(n) => n case None => 3;
    if rating < MinSalesComfort {
      failed := failed + [SalesComfort];
    }
  }

  /** The `dim_scores` comprehension: one score per key, in key order. */
  method ReadScores(t: Tally) returns (rs: seq<DimResult>)
    requires forall d :: d in t.order ==> d in t.totals && d in t.weights
    ensures |rs| == |t.order|
    ensures forall i :: 0 <= i < |rs| ==> rs[i] == DimResult(t.order[i], TallyScoreOf(t, t.order[i]))
  {
    rs := [];
    for i := 0 to |t.order|
      invariant |rs| == i
      invariant forall j :: 0 <= j < i ==> rs[j] == DimResult(t.order[j], TallyScoreOf(t, t.order[j]))
    {
      var d := t.order[i];
      var s := if t.weights[d] != 0.0 then RoundHalfEven(t.totals[d] / t.weights[d]) else 0;
      rs := rs + [DimResult(d, s)];
    }
  }

  /** The loop over the questions followed by the `dim_scores` comprehension. */
  method ScoreDimensions(es: seq<Entry>, dw: map<string, real>) returns (rs: seq<DimResult>)
    ensures rs == DimScores(es, dw)
  {
    var t := Accumulate(es, dw);
    rs := ReadScores(t);
    TallyKeys(es, dw, t);
    forall i | 0 <= i < |rs|
      ensures rs[i] == DimScores(es, dw)[i]
    {
      TallyScore(es, dw, t, i);
    }
  }

  /** `ssum` and `wsum`: the two sums of the overall score. */
  method SumScores(rs: seq<DimResult>, dw: map<string, real>) returns (ssum: real, wsum: real)
    ensures ssum == ScoreSum(rs, dw) && wsum == WeightSum(rs, dw)
  {
    ssum, wsum := 0.0, 0.0;
    for i := 0 to |rs|
      invariant ssum == ScoreSum(rs[..i], dw)
      invariant wsum == WeightSum(rs[..i], dw)
    {
      assert Init(rs[..i + 1]) == rs[..i];
      var w := DimWeight(dw, rs[i].dimension);
      ssum, wsum := ssum + rs[i].score as real * w, wsum + w;
    }
    assert rs[..|rs|] == rs;
  }

  /** The tier ladder. */
  method PickTier(overall: int, failed: seq<Check>) returns (tier: Tier)
    ensures tier == KnockoutReview <==> failed != []
    ensures failed == [] ==> InBand(overall, tier)
  {
    if failed != [] {
      tier := KnockoutReview;
    } else if overall >= StrongFrom {
      tier := StrongMatch;
    } else if overall >= PromisingFrom {
      tier := Promising;
    } else if overall >= TrainableFrom {
      tier := Trainable;
    } else {
      tier := LowMatch;
    }
  }

  /** The submit handler: the knockout block, the per-dimension scores, the
      overall score and the tier, in the handler's order. */
  method Submit(b: Bank, answers: Answers) returns (card: Scorecard)
    requires Scorable(b, answers)
    ensures card == Evaluate(b, answers)
    ensures card.tier == KnockoutReview <==> card.failed != []
  {
    var failed := CheckKnockouts(answers);
    var rs := ScoreDimensions(Entries(b.questions, answers), b.dimWeights);
    var overall := 0;
    if rs != [] {
      var ssum, wsum := SumScores(rs, b.dimWeights);
      overall := RoundHalfEven(ssum / wsum);
    }
    var tier := PickTier(overall, failed);
    if failed == [] {
      BandsPartition(overall, tier, Classify(overall, failed));
    }
    card := Scorecard(rs, overall, failed, tier);
  }

  /** With answers that fit, non-negative question weights and positive
      dimension weights, the scorecard is defined and every score it shows
      lies in [0,100]. */
  lemma ScorecardInRange(b: Bank, answers: Answers)
    requires AllFit(b.questions, answers) && NonNegativeWeights(b.questions)
    requires PositiveWeights(b.dimWeights)
    ensures Scorable(b, answers)
    ensures ScoresWithin(Evaluate(b, answers).dimensions, 0, 100)
    ensures 0 <= Evaluate(b, answers).overall <= 100
  {
    var es := Entries(b.questions, answers);
    var dw := b.dimWeights;
    var rs := DimensionsOf(b, answers);
    forall i | 0 <= i < |rs|
      ensures 0 <= rs[i].score <= 100
    {
      DimScoreBounds(es, dw, rs[i].dimension);
    }
    assert ScoresWithin(rs, 0, 100);
    if rs != [] {
      assert PositiveDimWeights(rs, dw);
      OverallBetween(rs, dw, 0, 100);
    }
  }

  /** The tier is the knockout review exactly when some answer fails a
      knockout, whatever the scores. */
  lemma KnockoutDecidesTier(b: Bank, answers: Answers)
    requires Scorable(b, answers)
    ensures Evaluate(b, answers).tier == KnockoutReview <==>
      !Truthy(Get(answers, AvailabilityEvenings.Name(), Bool(false))) ||
      !Truthy(Get(answers, AvailabilityWeekends.Name(), Bool(false))) ||
      SalesComfortRating(answers) < MinSalesComfort
  {
  }

  /** Answers that pass every knockout. */
  function PassingAnswers(): Answers {
    map[AvailabilityEvenings.Name() := Bool(true), AvailabilityWeekends.Name() := Bool(true),
        SalesComfort.Name() := Num(4.0)]
  }

  /** Two equally weighted likert ratings of 3 and 4 average 62.5, which
      rounds to the even 62: a Trainable candidate, not a Promising one. */
  lemma TieRoundsToEven()
    ensures var b := Bank(map[], [Likert("q1", "drive", 1.0), Likert("q2", "drive", 1.0)]);
      var answers := PassingAnswers()["q1" := Num(3.0)]["q2" := Num(4.0)];
      Scorable(b, answers) &&
      Evaluate(b, answers) == Scorecard([DimResult("drive", 62)], 62, [], Trainable)
  {
    var b := Bank(map[], [Likert("q1", "drive", 1.0), Likert("q2", "drive", 1.0)]);
    var answers := PassingAnswers()["q1" := Num(3.0)]["q2" := Num(4.0)];
    TieAnswers();
    TieEntries();
    SingleDimension(DimResult("drive", 62));
  }

  /** The entries of the bank of `TieRoundsToEven`, none of whose knockouts fail. */
  lemma TieAnswers()
    ensures var answers := PassingAnswers()["q1" := Num(3.0)]["q2" := Num(4.0)];
      var qs := [Likert("q1", "drive", 1.0), Likert("q2", "drive", 1.0)];
      AllFit(qs, answers) && Knockouts(answers) == [] &&
      Entries(qs, answers) == [Entry("drive", 1.0, 50.0), Entry("drive", 1.0, 75.0)]
  {
    var answers := PassingAnswers()["q1" := Num(3.0)]["q2" := Num(4.0)];
    assert AnswerFor(answers, Likert("q1", "drive", 1.0)) == Num(3.0);
    assert AnswerFor(answers, Likert("q2", "drive", 1.0)) == Num(4.0);
    assert SalesComfortRating(answers) == 4;
  }

  /** Ratings 50 and 75 of one dimension round to 62. */
  lemma TieEntries()
    ensures DimScores([Entry("drive", 1.0, 50.0), Entry("drive", 1.0, 75.0)], map[]) == [DimResult("drive", 62)]
  {
    var es := [Entry("drive", 1.0, 50.0), Entry("drive", 1.0, 75.0)];
    assert Init(es) == [es[0]] && Init([es[0]]) == [];
    assert Dims(es) == ["drive"];
    assert WeightedSum(es, "drive") == 125.0 && QuestionWeight(es, "drive") == 2.0;
    DimScoreIsWeightedMean(es, map[], "drive");
    RoundTies();
  }

  /** One dimension's overall score is its own score, whatever its weight. */
  lemma SingleDimension(r: DimResult)
    ensures WeightSum([r], map[]) != 0.0 && Overall.Overall([r], map[]) == r.score
  {
    assert Init([r]) == [] && Last([r]) == r;
    assert DimWeight(map[], r.dimension) == 1.0;
    assert ScoreSum([r], map[]) == ScoreSum([], map[]) + r.score as real * 1.0;
    assert WeightSum([r], map[]) == WeightSum([], map[]) + 1.0;
    assert ScoreSum([r], map[]) / WeightSum([r], map[]) == r.score as real;
    RoundNearest(r.score as real, r.score);
  }

  /** A question of weight 0 adds no score to its dimension, but when it is
      the only question of a dimension it still opens that dimension, whose
      score is then 0, and the overall mean counts it: one True answer scores
      100 alone and 50 beside a weight-0 question of another dimension. */
  lemma ZeroWeightDimensionCounts()
    ensures var one := Bank(map[], [Boolean("q1", "grit", 1.0)]);
      var two := Bank(map[], [Boolean("q1", "grit", 1.0), Boolean("q2", "tact", 0.0)]);
      var answers := PassingAnswers()["q1" := Bool(true)];
      Scorable(one, answers) && Scorable(two, answers) &&
      Evaluate(one, answers).overall == 100 && Evaluate(two, answers).overall == 50
  {
    ZeroWeightAnswers();
    OneEntry(Entry("grit", 1.0, 100.0));
    SingleDimension(DimResult("grit", 100));
    ZeroWeightEntries();
    TwoDimensions(DimResult("grit", 100), DimResult("tact", 0));
  }

  /** The entries of the two banks of `ZeroWeightDimensionCounts`. */
  lemma ZeroWeightAnswers()
    ensures var answers := PassingAnswers()["q1" := Bool(true)];
      var one := [Boolean("q1", "grit", 1.0)];
      var two := [Boolean("q1", "grit", 1.0), Boolean("q2", "tact", 0.0)];
      AllFit(one, answers) && AllFit(two, answers) &&
      Entries(one, answers) == [Entry("grit", 1.0, 100.0)] &&
      Entries(two, answers) == [Entry("grit", 1.0, 100.0), Entry("tact", 0.0, 0.0)]
  {
    var answers := PassingAnswers()["q1" := Bool(true)];
    assert AnswerFor(answers, Boolean("q1", "grit", 1.0)) == Bool(true);
  }

  /** A single entry of full score and weight 1 gives its dimension 100. */
  lemma OneEntry(e: Entry)
    requires e.weight == 1.0 && e.score == 100.0
    ensures DimScores([e], map[]) == [DimResult(e.dimension, 100)]
  {
    assert Init([e]) == [];
    assert Dims([e]) == [e.dimension];
    DimScoreIsWeightedMean([e], map[], e.dimension);
    RoundNearest(100.0, 100);
  }

  /** A full score in one dimension and a weight-0 entry in another. */
  lemma ZeroWeightEntries()
    ensures DimScores([Entry("grit", 1.0, 100.0), Entry("tact", 0.0, 0.0)], map[]) ==
      [DimResult("grit", 100), DimResult("tact", 0)]
  {
    var es := [Entry("grit", 1.0, 100.0), Entry("tact", 0.0, 0.0)];
    assert Init(es) == [es[0]] && Init([es[0]]) == [];
    assert Dims(es) == ["grit", "tact"];
    assert WeightedSum(es, "grit") == 100.0 && QuestionWeight(es, "grit") == 1.0;
    assert QuestionWeight(es, "tact") == 0.0;
    DimScoreIsWeightedMean(es, map[], "grit");
    DimScoreIsWeightedMean(es, map[], "tact");
    RoundNearest(100.0, 100);
  }

  /** Two dimensions of default weight average their scores. */
  lemma TwoDimensions(r: DimResult, s: DimResult)
    requires r.score == 100 && s.score == 0
    ensures WeightSum([r, s], map[]) != 0.0 && Overall.Overall([r, s], map[]) == 50
  {
    assert Init([r, s]) == [r] && Init([r]) == [] && Last([r, s]) == s && Last([r]) == r;
    assert DimWeight(map[], r.dimension) == 1.0 && DimWeight(map[], s.dimension) == 1.0;
    assert ScoreSum([r], map[]) == ScoreSum([], map[]) + 100.0 * 1.0;
    assert WeightSum([r], map[]) == WeightSum([], map[]) + 1.0;
    assert ScoreSum([r, s], map[]) == ScoreSum([r], map[]) + 0.0 * 1.0;
    assert WeightSum([r, s], map[]) == WeightSum([r], map[]) + 1.0;
    RoundNearest(50.0, 50);
  }
}

=== FILE: seqs.dfy ===
/** Taking a sequence apart at its end, the direction in which the source's
    loops and sums grow. */
module Seqs {

  /** The last element. */
  function Last<T>(xs: seq<T>): T
    requires xs != []
  {
    xs[|xs| - 1]
  }

  /** Everything but the last element. */
  function Init<T>(xs: seq<T>): seq<T>
    requires xs != []
  {
    xs[..|xs| - 1]
  }

  /** No element occurs twice. */
  predicate Distinct<T(==)>(xs: seq<T>) {
    forall i, j :: 0 <= i < j < |xs| ==> xs[i] != xs[j]
  }

  /** `xs` is `ys` with some elements left out, the rest kept in order. */
  predicate Subsequence<T(==)>(xs: seq<T>, ys: seq<T>)
    decreases |ys|
  {
    if xs == [] then true
    else if ys == [] then false
    else (xs[0] == ys[0] && Subsequence(xs[1..], ys[1..])) || Subsequence(xs, ys[1..])
  }

  /** Every element of a subsequence is an element of the sequence. */
  lemma {:induction false} SubsequenceMembers<T>(xs: seq<T>, ys: seq<T>)
    requires Subsequence(xs, ys)
    ensures forall x :: x in xs ==> x in ys
    decreases |ys|
  {
    if xs != [] {
      if xs[0] == ys[0] && Subsequence(xs[1..], ys[1..]) {
        SubsequenceMembers(xs[1..], ys[1..]);
        assert forall x :: x in xs ==> x == xs[0] || x in xs[1..];
      } else {
        SubsequenceMembers(xs, ys[1..]);
      }
    }
  }

  /** Leaving elements out of a sequence without repeats leaves no repeats. */
  lemma {:induction false} SubsequenceDistinct<T>(xs: seq<T>, ys: seq<T>)
    requires Subsequence(xs, ys) && Distinct(ys)
    ensures Distinct(xs)
    decreases |ys|
  {
    if xs != [] {
      assert Distinct(ys[1..]) by {
        forall i, j | 0 <= i < j < |ys| - 1
          ensures ys[1..][i] != ys[1..][j]
        {
          assert ys[1..][i] == ys[i + 1] && ys[1..][j] == ys[j + 1];
        }
      }
      if xs[0] == ys[0] && Subsequence(xs[1..], ys[1..]) {
        SubsequenceDistinct(xs[1..], ys[1..]);
        SubsequenceMembers(xs[1..], ys[1..]);
        forall j | 0 < j < |xs|
          ensures xs[0] != xs[j]
        {
          assert xs[j] == xs[1..][j - 1];
          assert xs[j] in ys[1..];
        }
      } else {
        SubsequenceDistinct(xs, ys[1..]);
      }
    }
  }
}

=== FILE: tiers.dfy ===
/** The tier classifier: a threshold ladder on the overall score, overridden
    by any failed knockout. */
module Tiers {

  datatype Tier = KnockoutReview | StrongMatch | Promising | Trainable | LowMatch {

    function Label(): string {
      match this
      case KnockoutReview => "Review (Knockout unmet)"
      case StrongMatch => "Strong Match"
      case Promising => "Promising"
      case Trainable => "Trainable"
      case LowMatch => "Low Match"
    }

    /** The badge colour shown beside the label. */
    function Colour(): string {
      match this
      case KnockoutReview => "yellow"
      case StrongMatch => "green"
      case Promising => "blue"
      case Trainable => "gray"
      case LowMatch => "red"
    }

    /** The order of the score-based tiers, from Low Match up. */
    function Rank(): nat {
      match this
      case LowMatch => 0
      case Trainable => 1
      case Promising => 2
      case StrongMatch => 3
      case KnockoutReview => 0
    }
  }

  /** Each tier shows its own label and its own badge colour, so the screen
      tells every decision apart. */
  lemma BadgesIdentifyTiers(t: Tier, u: Tier)
    ensures t.Label() == u.Label() ==> t == u
    ensures t.Colour() == u.Colour() ==> t == u
  {
  }

  /** Inclusive lower bounds of the score bands. */
  const StrongFrom: int := 85
  const PromisingFrom: int := 70
  const TrainableFrom: int := 55

  /** The band a score falls into when no knockout failed, stated as ranges. */
  predicate InBand(overall: int, t: Tier) {
    match t
    case StrongMatch => StrongFrom <= overall
    case Promising => PromisingFrom <= overall < StrongFrom
    case Trainable => TrainableFrom <= overall < PromisingFrom
    case LowMatch => overall < TrainableFrom
    case KnockoutReview => false
  }

  function Classify<K>(overall: int, failed: seq<K>): (t: Tier)
    ensures t == KnockoutReview <==> failed != []
    ensures failed == [] ==> InBand(overall, t)
  {
    if failed != [] then KnockoutReview
    else if overall >= StrongFrom then StrongMatch
    else if overall >= PromisingFrom then Promising
    else if overall >= TrainableFrom then Trainable
    else LowMatch
  }

  /** The four bands cover every integer, and no integer lies in two. */
  lemma BandsPartition(overall: int, t: Tier, u: Tier)
    requires InBand(overall, t) && InBand(overall, u)
    ensures t == u
  {
  }

  /** Without knockouts, a higher score never gets a lower tier. */
  lemma ClassifyMonotone<K>(x: int, y: int, failed: seq<K>)
    requires failed == [] && x <= y
    ensures Classify(x, failed).Rank() <= Classify(y, failed).Rank()
  {
  }

  /** A failed knockout decides the tier whatever the score. */
  lemma KnockoutOverridesScore<K>(x: int, y: int, failed: seq<K>)
    requires failed != []
    ensures Classify(x, failed) == Classify(y, failed) == KnockoutReview
  {
  }
}
